=== FILE: README.md ===
# Password-policy enforcement of the device-owner admin app

This project models the one piece of logic in the Android device-owner app:
the step that enforces a remotely fetched password policy
(`applyPasswordPolicy` in `MainActivity.kt`) and the optional-field policy
record it consumes (`PasswordPolicy.kt`).

When the app's admin component is active, one enforcement pass does these things:
- It sets the minimum password length, if the record gives one.
- It always sets the password quality class: alphanumeric when
  `require_special_chars` is `true`, numeric otherwise.
- It computes an expiration window from `expiration_days`, which defaults to 30 days.
- It compares the stored `last_password_change` timestamp with the current
  time, with one of three outcomes:
  - The timestamp is 0 (never recorded): it is set to now. This is the first-run baseline.
  - The timestamp is recorded and now minus it exceeds the window: a reset is
    forced and the timestamp is set to now.
  - Otherwise nothing changes.

Modules:
- `Wrappers`: `Option`, standing for Kotlin's nullable types.
- `KotlinInt`: Kotlin's `Int` and `Long`, with their wrap-around written out.
  It also holds the modular-arithmetic lemmas that the window computation needs.
- `PasswordPolicies`: the `PasswordPolicy` record. Its constructor arguments
  default to `None`, as the data class's `= null` defaults do.
- `PolicyEnforcement`:
  - `Apply` is the specification function. It gives the effect of one pass on
    the device and preference state (`Settings`).
  - The class `AdminDevice` holds that state as fields. Its methods update the
    fields in place and are proved against `Apply`.
  - Lemmas state the properties of a pass.

Points where the code's behaviour is easy to misread, all modelled as written:
- The window is `(expiration_days ?: 30) * 24 * 60 * 60 * 1000L`. It is
  evaluated left to right, and the first three products are in 32-bit `Int`.
  So the Int product wraps once `|days| > 24855`, and the window is then not
  the plain product `days * 86_400_000`: at 24856 days it is negative.
- The quality set is `PASSWORD_QUALITY_ALPHANUMERIC` (`Alphanumeric` here),
  although the field is named `require_special_chars`.
- The code does not check that `expiration_days` or `min_length` is positive;
  either may be any `Int`.
- The elapsed time `currentTime - lastChange` is a `Long` subtraction and is
  modelled with 64-bit wrap-around. `SubLongExact` shows that it is exact for
  non-negative timestamps.

Every `onCreate` launches one fetch (lines 87-92), and a pass runs only when
the fetch returns a record. The timestamp persists in the preference store
between passes. `Run` models a sequence of such starts that all enforce one
fixed policy. A start whose fetch fails is represented by a start with
`adminActive == false`, which has the same effect: `Apply(s, p, false, now) == s`
(`InactiveIsNoOp`). The lemmas about `Run` state what the expiration tracking
promises over time: with a forward-running clock and a non-negative window
(`ExpirationWindow(p) >= 0`, e.g. 0..24855 days), a forced reset happens at
most once per window. Once a timestamp is recorded (a positive stamp), a
negative window forces a reset on every active start; the first start on an
unrecorded device only stamps it (`FirstRunBaseline`, `WrappedWindowAlwaysExpires`,
`NegativeWindowResetsEveryStart`).

The clock (`System.currentTimeMillis()`) and the admin-active check
(`isAdminActive`) are parameters of the pass. The remote read is an
`Option<PasswordPolicy>` input to `OnPolicyFetched`.

## Model

| member | source | states |
|---|---|---|
| `PasswordPolicies.DefaultsAreAbsent` | app/src/main/java/com/example/adminapp/model/PasswordPolicy.kt:4-6 | the no-argument record has all three fields absent; no default is baked into the record |
| `PasswordPolicies.EqualIffFieldsEqual` | app/src/main/java/com/example/adminapp/model/PasswordPolicy.kt:3-7 | two records are equal exactly when their three fields are equal (data-class equality) |
| `PolicyEnforcement.RequiredQuality` | app/src/main/java/com/example/adminapp/MainActivity.kt:98-102 | the quality is alphanumeric iff `require_special_chars == true`; it is numeric iff the field is false or absent |
| `PolicyEnforcement.ExpirationWindow` | app/src/main/java/com/example/adminapp/MainActivity.kt:107 | the stepwise Int/Long evaluation equals `Wrap32(days * 86400) * 1000`; it equals `days * 86_400_000` if and only if `|days| <= 24855` |
| `KotlinInt.Wrap32MulCongruent` | app/src/main/java/com/example/adminapp/MainActivity.kt:107 | wrapping an intermediate Int product does not change the wrapped final product |
| `KotlinInt.SubLongExact` | app/src/main/java/com/example/adminapp/MainActivity.kt:109 | `currentTime - lastChange` in Long is the exact difference when both are non-negative |
| `Wrappers.Option.GetOr` | app/src/main/java/com/example/adminapp/MainActivity.kt:107 | the elvis operator `?:`: the present value, or the default when absent |
| `KotlinInt.MulInt` | app/src/main/java/com/example/adminapp/MainActivity.kt:107 | Int `*` gives the product modulo 2^32, and the exact product when it fits an Int |
| `KotlinInt.SubLong` | app/src/main/java/com/example/adminapp/MainActivity.kt:109 | Long `-` gives the difference modulo 2^64, and the exact difference when it fits a Long |
| `PolicyEnforcement.ExpirationDays` | app/src/main/java/com/example/adminapp/MainActivity.kt:107 | `expiration_days ?: 30`: 30 when the field is absent, the field's value otherwise |
| `PolicyEnforcement.IsExpired` | app/src/main/java/com/example/adminapp/MainActivity.kt:109 | the expiry test holds only for a recorded (non-zero) timestamp; for a positive stamp and non-negative `now` it is exactly `now - last > window` |
| `PolicyEnforcement.Apply` | app/src/main/java/com/example/adminapp/MainActivity.kt:95-122 | one pass adds at most one reset, leaves the stamp or sets it to `now`, leaves the min length or sets it to the record's, and an active pass always sets a quality class |
| `PolicyEnforcement.AdminDevice.ApplyPasswordPolicy` | app/src/main/java/com/example/adminapp/MainActivity.kt:95-122 | the new device and preference state is `Apply` of the old state; with the admin inactive no field changes |
| `PolicyEnforcement.AdminDevice.OnPolicyFetched` | app/src/main/java/com/example/adminapp/MainActivity.kt:88-91 | an absent fetch result changes nothing; a fetched record is enforced as `Apply` states |
| `PolicyEnforcement.InactiveIsNoOp` | app/src/main/java/com/example/adminapp/MainActivity.kt:96 | with the admin inactive, min length, quality, reset count and timestamp are all unchanged |
| `PolicyEnforcement.MinLengthRule` | app/src/main/java/com/example/adminapp/MainActivity.kt:97 | an absent `min_length` leaves the requirement unchanged; a present one sets exactly that value |
| `PolicyEnforcement.QualityAlwaysSet` | app/src/main/java/com/example/adminapp/MainActivity.kt:98-102 | an active pass always sets a quality: alphanumeric iff `require_special_chars == true`, numeric when it is absent, whatever the previous class |
| `PolicyEnforcement.FirstRunBaseline` | app/src/main/java/com/example/adminapp/MainActivity.kt:109-118 | a stored timestamp of 0 becomes `now` and no reset is issued |
| `PolicyEnforcement.ExpiredForcesReset` | app/src/main/java/com/example/adminapp/MainActivity.kt:109-113 | a recorded timestamp with elapsed time above the window yields exactly one reset, and the timestamp becomes `now` |
| `PolicyEnforcement.UnexpiredIsKept` | app/src/main/java/com/example/adminapp/MainActivity.kt:109-120 | a recorded timestamp with elapsed time at most the window (equality included) yields no reset and is kept |
| `PolicyEnforcement.ResetIffExpired` | app/src/main/java/com/example/adminapp/MainActivity.kt:109-120 | a reset is issued iff the admin is active and the timestamp expired; the timestamp becomes `now` iff active and (unset or expired) |
| `PolicyEnforcement.DefaultWindowIsThirtyDays` | app/src/main/java/com/example/adminapp/MainActivity.kt:107 | an absent `expiration_days` gives a window of 30 days in milliseconds |
| `PolicyEnforcement.WindowExactUpToLimit` | app/src/main/java/com/example/adminapp/MainActivity.kt:107 | for 0..24855 days the window is the true product `days * 86_400_000` and non-negative |
| `PolicyEnforcement.WindowWrapsAtLimit` | app/src/main/java/com/example/adminapp/MainActivity.kt:107 | at 24856 days the Int product wraps: the window is -2,147,408,896,000 ms, not the true product |
| `PolicyEnforcement.WrappedWindowAlwaysExpires` | app/src/main/java/com/example/adminapp/MainActivity.kt:107-113 | with 24856 days, every positive timestamp not in the future is expired, so each pass, even a repeat at the same instant, forces a reset |
| `PolicyEnforcement.ApplyTwiceSameInstant` | app/src/main/java/com/example/adminapp/MainActivity.kt:105-120 | with a non-negative window, a second pass at the same `now` issues no reset and leaves the state as the first pass left it |
| `PolicyEnforcement.Run` | app/src/main/java/com/example/adminapp/MainActivity.kt:87-120 | over successive app starts, each running one pass, the reset count grows by at most one per start, and the final stamp is the initial one or one of the starts' clock readings |
| `PolicyEnforcement.OneStartAdvance` | app/src/main/java/com/example/adminapp/MainActivity.kt:105-120 | with the clock not before the stamp, one start keeps the stamp or moves it to `now`, issues at most one reset, and moves the stamp more than a window ahead when it resets |
| `PolicyEnforcement.StampAdvancesPerReset` | app/src/main/java/com/example/adminapp/MainActivity.kt:105-120 | with a forward-running clock, over any sequence of starts the stamp advances by at least `window + 1` per forced reset (by induction over the starts) |
| `PolicyEnforcement.RunStampBounds` | app/src/main/java/com/example/adminapp/MainActivity.kt:105-120 | with a forward-running clock the stored timestamp never moves back and never passes the last clock reading |
| `PolicyEnforcement.ResetsAtMostOncePerWindow` | app/src/main/java/com/example/adminapp/MainActivity.kt:105-120 | with a forward-running clock, resets times (window + 1) is at most the stamp's advance; for a non-negative window (`ExpirationWindow(p) >= 0`, e.g. 0..24855 days) that is at most one forced reset per window, while a negative window bounds nothing |
| `PolicyEnforcement.NegativeWindowResetsEveryStart` | app/src/main/java/com/example/adminapp/MainActivity.kt:105-113 | with a negative window (negative days, or a count that wraps), every active start on a positive stamp with a forward clock forces a reset: resets equal the number of starts |
| `PolicyEnforcement.ResetsFromFirstStart` | app/src/main/java/com/example/adminapp/MainActivity.kt:105-120 | from a first start on an unrecorded device, resets times (window + 1) is at most the time between the first and the last start |
| `PolicyEnforcement.FirstRunScenario` | app/src/main/java/com/example/adminapp/MainActivity.kt:96-118 | {min 8, special chars, 30 days} on an unrecorded device gives min length 8, alphanumeric, timestamp `now`, no reset |
| `PolicyEnforcement.OneDayPastWindowResets` | app/src/main/java/com/example/adminapp/MainActivity.kt:105-113 | for any non-negative day count (the 30-day default and wrapped windows included), a timestamp `(days + 1)` days old forces a reset and restamps, besides setting min length and quality |
| `PolicyEnforcement.OneDayInsideWindowKept` | app/src/main/java/com/example/adminapp/MainActivity.kt:105-120 | for 1..24855 days (the 30-day default included), a timestamp `(days - 1)` days old is kept and no reset is issued |
| `PolicyEnforcement.WindowEndNotExpired` | app/src/main/java/com/example/adminapp/MainActivity.kt:109 | exactly at the window's end the comparison is strict: no reset, and the timestamp is kept |

## Left out

- The remote Firestore read (`FirebaseHelper.getPasswordPolicy`) is network I/O,
  and its exception handling collapses failures to null. FirebaseHelper.kt is
  not part of this model: only its result enters, as the `Option` argument of `OnPolicyFetched`.
- The coroutine launch on the IO dispatcher and the `runOnUiThread` posting are
  threading. The posted reset and timestamp write happen before the method returns.
- `System.currentTimeMillis()` is the `now` parameter, and `isAdminActive` is the
  `adminActive` parameter. Both are host calls.
- The toasts, the `Log` calls and the hard-coded reset password string are left
  out: they are foreign calls with no state the model tracks. A forced reset is
  counted in `resetCount`.
- Pinning, unpinning, back-press handling, locking, unlocking, the button wiring,
  the device-owner and status-bar setup, the activate-admin intent and
  `onActivityResult` are left out. They are UI handlers and thin guards over host APIs.
- Android's numeric constants for the quality classes are left out. The classes
  are a datatype, and `Unspecified` stands for the device's state before any policy is set.
- Whether the operating system accepts the values passed to the device-policy
  manager (for instance a negative minimum length) is left out. The model records
  exactly the value the code passes.

=== FILE: kotlin_int.dfy ===
/**
 * Kotlin's fixed-width integers on the JVM. `Int` is 32-bit and `Long` is
 * 64-bit two's complement; `*` and `-` on them wrap around silently.
 */
module KotlinInt {

  const TWO_32: int := 0x1_0000_0000
  const TWO_64: int := 0x1_0000_0000_0000_0000

  type Int32 = x: int | -0x8000_0000 <= x < 0x8000_0000
  type Int64 = x: int | -0x8000_0000_0000_0000 <= x < 0x8000_0000_0000_0000

  /** The Int that the JVM keeps of the mathematical value `x`. */
  function Wrap32(x: int): Int32
  {
    (x + 0x8000_0000) % TWO_32 - 0x8000_0000
  }

  /** The Long that the JVM keeps of the mathematical value `x`. */
  function Wrap64(x: int): Int64
  {
    (x + 0x8000_0000_0000_0000) % TWO_64 - 0x8000_0000_0000_0000
  }

  /**
   * Int multiplication `a * b`: the product modulo 2^32, and the exact
   * product when it fits an Int.
   */
  function MulInt(a: Int32, b: Int32): (r: Int32)
    ensures (r - a * b) % TWO_32 == 0
    ensures -0x8000_0000 <= a * b < 0x8000_0000 ==> r == a * b
  {
    Wrap32Congruent(a * b);
    Wrap32InRange(a * b);
    Wrap32(a * b)
  }

  /**
   * Long subtraction `a - b`: the difference modulo 2^64, and the exact
   * difference when it fits a Long.
   */
  function SubLong(a: Int64, b: Int64): (r: Int64)
    ensures (r - (a - b)) % TWO_64 == 0
    ensures -0x8000_0000_0000_0000 <= a - b < 0x8000_0000_0000_0000 ==> r == a - b
  {
    Wrap64Congruent(a - b);
    Wrap64InRange(a - b);
    Wrap64(a - b)
  }

  /** The Int kept differs from the value by a multiple of 2^32. */
  lemma Wrap32Congruent(x: int)
    ensures (Wrap32(x) - x) % TWO_32 == 0
  {
    var q := (x + 0x8000_0000) / TWO_32;
    assert Wrap32(x) - x == -q * TWO_32;
    ModUnique32(-q * TWO_32, -q, 0);
  }

  /** The Long kept differs from the value by a multiple of 2^64. */
  lemma Wrap64Congruent(x: int)
    ensures (Wrap64(x) - x) % TWO_64 == 0
  {
    var q := (x + 0x8000_0000_0000_0000) / TWO_64;
    assert Wrap64(x) - x == -q * TWO_64;
    ModUnique64(-q * TWO_64, -q, 0);
  }

  /** Euclidean division by 2^32 has exactly one quotient and remainder. */
  lemma ModUnique32(y: int, q: int, r: int)
    requires 0 <= r < TWO_32 && y == q * TWO_32 + r
    ensures y % TWO_32 == r
  {
  }

  /** Euclidean division by 2^64 has exactly one quotient and remainder. */
  lemma ModUnique64(y: int, q: int, r: int)
    requires 0 <= r < TWO_64 && y == q * TWO_64 + r
    ensures y % TWO_64 == r
  {
  }

  /** A value is its own Int exactly when it lies in the Int range. */
  lemma {:induction false} Wrap32InRange(x: int)
    ensures Wrap32(x) == x <==> -0x8000_0000 <= x < 0x8000_0000
  {
    if -0x8000_0000 <= x < 0x8000_0000 {
      ModUnique32(x + 0x8000_0000, 0, x + 0x8000_0000);
    }
  }

  /** A value is its own Long exactly when it lies in the Long range. */
  lemma {:induction false} Wrap64InRange(x: int)
    ensures Wrap64(x) == x <==> -0x8000_0000_0000_0000 <= x < 0x8000_0000_0000_0000
  {
    if -0x8000_0000_0000_0000 <= x < 0x8000_0000_0000_0000 {
      ModUnique64(x + 0x8000_0000_0000_0000, 0, x + 0x8000_0000_0000_0000);
    }
  }

  /** Adding a multiple of 2^32 does not change the Int kept. */
  lemma {:induction false} Wrap32Shift(x: int, k: int)
    ensures Wrap32(x + k * TWO_32) == Wrap32(x)
  {
    var y := x + 0x8000_0000;
    ModUnique32(y + k * TWO_32, y / TWO_32 + k, y % TWO_32);
  }

  /**
   * Wrapping an intermediate product does not change the final Int: a chain
   * of Int multiplications keeps the same value as one exact product wrapped once.
   */
  lemma {:induction false} Wrap32MulCongruent(a: int, b: int)
    ensures Wrap32(Wrap32(a) * b) == Wrap32(a * b)
  {
    var y := a + 0x8000_0000;
    var q := y / TWO_32;
    assert Wrap32(a) == a - q * TWO_32;
    assert Wrap32(a) * b == a * b + (-q * b) * TWO_32;
    Wrap32Shift(a * b, -q * b);
  }

  /** Long subtraction of two non-negative Longs never wraps. */
  lemma SubLongExact(a: Int64, b: Int64)
    requires a >= 0 && b >= 0
    ensures SubLong(a, b) == a - b
  {
    Wrap64InRange(a - b);
  }
}

=== FILE: password_policy.dfy ===
/**
 * The policy record read from the remote document store
 * (app/src/main/java/com/example/adminapp/model/PasswordPolicy.kt).
 */
module PasswordPolicies {
  import opened Wrappers
  import opened KotlinInt

  /**
   * An immutable record of three independently optional fields. Each field
   * defaults to absent, as the Kotlin data class's `= null` defaults do; the
   * 30-day expiration default is applied only at enforcement time.
   * Dafny datatype equality is structural, as a Kotlin data class's `equals` is.
   */
  datatype PasswordPolicy = PasswordPolicy(
    minLength: Option<Int32> := None,
    requireSpecialChars: Option<bool> := None,
    expirationDays: Option<Int32> := None
  )

  /** The no-argument constructor leaves every field absent. */
  lemma DefaultsAreAbsent()
    ensures PasswordPolicy().minLength == None
    ensures PasswordPolicy().requireSpecialChars == None
    ensures PasswordPolicy().expirationDays == None
  {
  }

  /** Two records are equal exactly when all three fields are equal. */
  lemma EqualIffFieldsEqual(a: PasswordPolicy, b: PasswordPolicy)
    ensures a == b <==>
      a.minLength == b.minLength &&
      a.requireSpecialChars == b.requireSpecialChars &&
      a.expirationDays == b.expirationDays
  {
  }
}

=== FILE: policy_enforcement.dfy ===
/**
 * The password-policy enforcement step of the device-owner screen
 * (app/src/main/java/com/example/adminapp/MainActivity.kt, applyPasswordPolicy).
 *
 * The device-policy manager and the `admin_prefs` preference store are
 * modelled as one state: the minimum-length requirement, the password
 * quality class, the number of forced resets issued so far and the stored
 * `last_password_change` timestamp (epoch milliseconds, 0 meaning never
 * recorded). Whether the admin component is active and the current time
 * are parameters.
 */
module PolicyEnforcement {
  import opened Wrappers
  import opened KotlinInt
  import opened PasswordPolicies

  /** Password quality classes; `Unspecified` is the device's state before any policy. */
  datatype Quality = Unspecified | Numeric | Alphanumeric

  /** Expiration period used when the record does not give one. */
  const DEFAULT_EXPIRATION_DAYS: Int32 := 30

  /** Milliseconds in a day, when no wrap-around happens. */
  const MILLIS_PER_DAY: int := 86_400_000

  /** Largest number of days whose window fits the 32-bit intermediate. */
  const MAX_EXACT_DAYS: int := 24855

  /** What the device and the preference store hold. */
  datatype Settings = Settings(
    minLength: Option<Int32>,
    quality: Quality,
    resetCount: nat,
    lastChange: Int64
  )

  /**
   * The quality class set on every enforcement: alphanumeric only when the
   * record says `require_special_chars == true`; numeric when it is false
   * or absent.
   */
  function RequiredQuality(p: PasswordPolicy): (q: Quality)
    ensures q == Alphanumeric <==> p.requireSpecialChars == Some(true)
    ensures q == Numeric <==> p.requireSpecialChars != Some(true)
  {
    match p.requireSpecialChars
    case Some(true) => Alphanumeric
    case _ => Numeric
  }

  /** The expiration period in days, `expiration_days ?: 30`. */
  function ExpirationDays(p: PasswordPolicy): (d: Int32)
    ensures p.expirationDays.None? ==> d == DEFAULT_EXPIRATION_DAYS
    ensures p.expirationDays.Some? ==> d == p.expirationDays.value
  {
    p.expirationDays.GetOr(DEFAULT_EXPIRATION_DAYS)
  }

  /**
   * The expiration window in milliseconds, evaluated as Kotlin does:
   * `days * 24 * 60 * 60` in Int, each product wrapping, then widened to
   * Long and multiplied by `1000L` (that last product always fits a Long).
   * It is the exact product exactly when |days| <= 24855.
   */
  function ExpirationWindow(p: PasswordPolicy): (w: Int64)
    ensures w == Wrap32(ExpirationDays(p) * 86_400) * 1000
    ensures w == ExpirationDays(p) * MILLIS_PER_DAY <==>
              -MAX_EXACT_DAYS <= ExpirationDays(p) <= MAX_EXACT_DAYS
  {
    var d := ExpirationDays(p);
    Wrap32MulCongruent(d * 24, 60);
    Wrap32MulCongruent(d * 24 * 60, 60);
    Wrap32MulCongruent(d * 24, 60 * 60);
    Wrap32InRange(d * 86_400);
    MulInt(MulInt(MulInt(d, 24), 60), 60) * 1000
  }

  /** The expiry test of line 109: a recorded timestamp older than the window. */
  predicate IsExpired(lastChange: Int64, now: Int64, window: Int64): (expired: bool)
    ensures expired ==> lastChange != 0
    ensures 0 < lastChange && 0 <= now ==> (expired <==> now - lastChange > window)
  {
    SubLongExact(if now < 0 then 0 else now, if lastChange < 0 then 0 else lastChange);
    lastChange != 0 && SubLong(now, lastChange) > window
  }

  /** The whole effect of one enforcement pass on the settings. */
  function Apply(s: Settings, p: PasswordPolicy, adminActive: bool, now: Int64): (r: Settings)
    ensures s.resetCount <= r.resetCount <= s.resetCount + 1
    ensures r.lastChange == s.lastChange || r.lastChange == now
    ensures r.minLength == s.minLength || r.minLength == p.minLength
    ensures adminActive ==> r.quality != Unspecified
  {
    if !adminActive then s
    else
      var s1 := s.(minLength := if p.minLength.Some? then p.minLength else s.minLength,
                   quality := RequiredQuality(p));
      if IsExpired(s.lastChange, now, ExpirationWindow(p)) then
        s1.(resetCount := s.resetCount + 1, lastChange := now)
      else if s.lastChange == 0 then
        s1.(lastChange := now)
      else
        s1
  }

  /** The device-policy manager and the preference store, updated in place. */
  class AdminDevice {
    var minLength: Option<Int32>
    var quality: Quality
    var resetCount: nat
    var lastChange: Int64

    function Snapshot(): (s: Settings)
      reads this
    {
      Settings(minLength, quality, resetCount, lastChange)
    }

    constructor (initial: Settings)
      ensures Snapshot() == initial
    {
      minLength := initial.minLength;
      quality := initial.quality;
      resetCount := initial.resetCount;
      lastChange := initial.lastChange;
    }

    /**
     * applyPasswordPolicy: when the admin is active, set the minimum length
     * if given, always set the quality class, then reset and restamp an
     * expired password or stamp a first observation. The reset and the
     * timestamp write posted to the UI thread are done before returning.
     */
    method ApplyPasswordPolicy(policy: PasswordPolicy, adminActive: bool, now: Int64)
      modifies this
      ensures Snapshot() == Apply(old(Snapshot()), policy, adminActive, now)
      ensures !adminActive ==> unchanged(this)
    {
      if adminActive {
        if policy.minLength.Some? {
          minLength := policy.minLength;
        }
        quality := RequiredQuality(policy);

        var last := lastChange;
        var currentTime := now;
        var expirationMillis := ExpirationWindow(policy);

        if last != 0 && SubLong(currentTime, last) > expirationMillis {
          resetCount := resetCount + 1;
          lastChange := currentTime;
        } else {
          if last == 0 {
            lastChange := currentTime;
          }
        }
      }
    }

    /**
     * The continuation of the startup fetch: a policy that was read is
     * enforced; an absent record or a failed read does nothing.
     */
    method OnPolicyFetched(fetched: Option<PasswordPolicy>, adminActive: bool, now: Int64)
      modifies this
      ensures fetched.None? ==> unchanged(this)
      ensures fetched.Some? ==> Snapshot() == Apply(old(Snapshot()), fetched.value, adminActive, now)
    {
      match fetched
      case Some(p) => ApplyPasswordPolicy(p, adminActive, now);
      case None =>
    }
  }

  // ---------------------------------------------------------------------
  // Properties of one enforcement pass

  /** With the admin inactive, nothing at all changes. */
  lemma InactiveIsNoOp(s: Settings, p: PasswordPolicy, now: Int64)
    ensures Apply(s, p, false, now) == s
  {
  }

  /** An absent `min_length` leaves the requirement alone; a present one sets exactly that value. */
  lemma MinLengthRule(s: Settings, p: PasswordPolicy, now: Int64)
    ensures p.minLength.None? ==> Apply(s, p, true, now).minLength == s.minLength
    ensures p.minLength.Some? ==> Apply(s, p, true, now).minLength == p.minLength
  {
  }

  /**
   * The quality class is always set when the admin is active, whatever the
   * previous class: alphanumeric iff `require_special_chars == true`.
   * A previous alphanumeric requirement is downgraded when the field is absent.
   */
  lemma QualityAlwaysSet(s: Settings, p: PasswordPolicy, now: Int64)
    ensures Apply(s, p, true, now).quality != Unspecified
    ensures Apply(s, p, true, now).quality == Alphanumeric <==> p.requireSpecialChars == Some(true)
    ensures p.requireSpecialChars.None? ==> Apply(s, p, true, now).quality == Numeric
  {
  }

  /** First run: an unrecorded timestamp becomes `now` and no reset is issued. */
  lemma FirstRunBaseline(s: Settings, p: PasswordPolicy, now: Int64)
    requires s.lastChange == 0
    ensures Apply(s, p, true, now).lastChange == now
    ensures Apply(s, p, true, now).resetCount == s.resetCount
  {
  }

  /** An expired recorded timestamp forces exactly one reset and is restamped with `now`. */
  lemma ExpiredForcesReset(s: Settings, p: PasswordPolicy, now: Int64)
    requires s.lastChange != 0
    requires SubLong(now, s.lastChange) > ExpirationWindow(p)
    ensures Apply(s, p, true, now).resetCount == s.resetCount + 1
    ensures Apply(s, p, true, now).lastChange == now
  {
  }

  /**
   * A recorded timestamp within the window (the window's end included, as
   * the comparison is strict) issues no reset and is kept.
   */
  lemma UnexpiredIsKept(s: Settings, p: PasswordPolicy, now: Int64)
    requires s.lastChange != 0
    requires SubLong(now, s.lastChange) <= ExpirationWindow(p)
    ensures Apply(s, p, true, now).resetCount == s.resetCount
    ensures Apply(s, p, true, now).lastChange == s.lastChange
  {
  }

  /** The three branches are exhaustive: a pass issues a reset exactly when the timestamp has expired. */
  lemma ResetIffExpired(s: Settings, p: PasswordPolicy, adminActive: bool, now: Int64)
    ensures Apply(s, p, adminActive, now).resetCount ==
              s.resetCount + (if adminActive && IsExpired(s.lastChange, now, ExpirationWindow(p)) then 1 else 0)
    ensures Apply(s, p, adminActive, now).lastChange ==
              if adminActive && (s.lastChange == 0 || IsExpired(s.lastChange, now, ExpirationWindow(p)))
              then now else s.lastChange
  {
  }

  // ---------------------------------------------------------------------
  // The expiration window

  /** An absent `expiration_days` means a 30-day window, 2,592,000,000 ms. */
  lemma DefaultWindowIsThirtyDays(p: PasswordPolicy)
    requires p.expirationDays.None?
    ensures ExpirationWindow(p) == 30 * MILLIS_PER_DAY
  {
  }

  /** Up to 24855 days the window is the true product of days and milliseconds per day. */
  lemma {:induction false} WindowExactUpToLimit(p: PasswordPolicy)
    requires p.expirationDays.Some? && 0 <= p.expirationDays.value <= MAX_EXACT_DAYS
    ensures ExpirationWindow(p) == p.expirationDays.value * MILLIS_PER_DAY
    ensures ExpirationWindow(p) >= 0
  {
  }

  /**
   * At 24856 days the Int product `days * 86400` passes 2^31 - 1 and wraps
   * to a negative value, so the window is negative rather than 24856 days.
   */
  lemma WindowWrapsAtLimit(p: PasswordPolicy)
    requires p.expirationDays == Some(MAX_EXACT_DAYS + 1)
    ensures ExpirationWindow(p) == -2_147_408_896_000
    ensures ExpirationWindow(p) != (MAX_EXACT_DAYS + 1) * MILLIS_PER_DAY
  {
    Wrap32Shift(-2_147_408_896, 1);
    Wrap32InRange(-2_147_408_896);
  }

  /**
   * Consequence of the wrap: with a 24856-day policy every positive
   * timestamp not in the future counts as expired, so each pass forces a reset.
   */
  lemma WrappedWindowAlwaysExpires(s: Settings, p: PasswordPolicy, now: Int64)
    requires p.expirationDays == Some(MAX_EXACT_DAYS + 1)
    requires 0 < s.lastChange <= now
    ensures Apply(s, p, true, now).resetCount == s.resetCount + 1
    ensures Apply(Apply(s, p, true, now), p, true, now).resetCount == s.resetCount + 2
  {
    WindowWrapsAtLimit(p);
    SubLongExact(now, s.lastChange);
    SubLongExact(now, now);
  }

  // ---------------------------------------------------------------------
  // Repeated enforcement

  /**
   * With a non-negative window, a second pass at the same instant issues no
   * reset and changes nothing: one pass always leaves the timestamp at `now`
   * or unexpired.
   */
  lemma {:induction false} ApplyTwiceSameInstant(s: Settings, p: PasswordPolicy, adminActive: bool, now: Int64)
    requires ExpirationWindow(p) >= 0
    ensures Apply(Apply(s, p, adminActive, now), p, adminActive, now).resetCount ==
              Apply(s, p, adminActive, now).resetCount
    ensures Apply(Apply(s, p, adminActive, now), p, adminActive, now) == Apply(s, p, adminActive, now)
  {
    var s1 := Apply(s, p, adminActive, now);
    if adminActive && s1.lastChange == now {
      Wrap64InRange(0);
      assert SubLong(now, now) == 0;
    }
  }

  // ---------------------------------------------------------------------
  // Successive app starts

  /**
   * One app start: the fetch succeeds and a pass runs with the admin flag and
   * the clock reading of that start. The timestamp persists between starts.
   */
  datatype Start = Start(adminActive: bool, now: Int64)

  /** The settings after a sequence of starts that each enforce policy `p`. */
  function Run(s: Settings, p: PasswordPolicy, starts: seq<Start>): (r: Settings)
    ensures s.resetCount <= r.resetCount <= s.resetCount + |starts|
    ensures r.lastChange == s.lastChange || exists i :: 0 <= i < |starts| && r.lastChange == starts[i].now
    decreases |starts|
  {
    if starts == [] then s
    else
      var r := Run(Apply(s, p, starts[0].adminActive, starts[0].now), p, starts[1..]);
      assert forall i :: 0 <= i < |starts[1..]| ==> starts[1..][i] == starts[i + 1];
      r
  }

  /** The clock never runs backwards and never reads before `base`. */
  ghost predicate ClockFrom(base: int, starts: seq<Start>)
  {
    && (forall i :: 0 <= i < |starts| ==> base <= starts[i].now)
    && (forall i, j :: 0 <= i < j < |starts| ==> starts[i].now <= starts[j].now)
  }

  /**
   * With a forward-running clock the stored timestamp never moves back and
   * never passes the last clock reading.
   */
  lemma {:induction false} RunStampBounds(s: Settings, p: PasswordPolicy, starts: seq<Start>)
    requires s.lastChange > 0
    requires ClockFrom(s.lastChange, starts)
    ensures s.lastChange <= Run(s, p, starts).lastChange
    ensures |starts| > 0 ==> Run(s, p, starts).lastChange <= starts[|starts| - 1].now
    decreases |starts|
  {
    if starts != [] {
      var s1 := Apply(s, p, starts[0].adminActive, starts[0].now);
      var rest := starts[1..];
      assert s.lastChange <= starts[0].now;
      assert s1.lastChange == s.lastChange || s1.lastChange == starts[0].now;
      assert ClockFrom(s1.lastChange, rest) by {
        assert forall i :: 0 <= i < |rest| ==> rest[i] == starts[i + 1];
      }
      RunStampBounds(s1, p, rest);
      if rest != [] {
        assert rest[|rest| - 1] == starts[|starts| - 1];
      }
    }
  }

  /** `k` steps of `m` each, added up without multiplying. */
  function Repeated(k: nat, m: int): int
  {
    if k == 0 then 0 else Repeated(k - 1, m) + m
  }

  /** `Repeated` is multiplication. */
  lemma {:induction false} RepeatedIsProduct(k: nat, m: int)
    ensures Repeated(k, m) == k * m
  {
    if k > 0 {
      RepeatedIsProduct(k - 1, m);
      assert k * m == (k - 1) * m + m;
    }
  }

  /** One start either keeps the stamp or moves it forward to `now`, more than a window ahead when it resets. */
  lemma OneStartAdvance(s: Settings, p: PasswordPolicy, adminActive: bool, now: Int64)
    requires 0 < s.lastChange <= now
    ensures var s1 := Apply(s, p, adminActive, now);
      && (s1.lastChange == s.lastChange || s1.lastChange == now)
      && (s1.resetCount == s.resetCount || s1.resetCount == s.resetCount + 1)
      && (s1.resetCount == s.resetCount + 1 ==> s1.lastChange - s.lastChange > ExpirationWindow(p))
  {
  }

  /** Over a sequence of starts, each reset advances the stamp by at least `window + 1`. */
  lemma {:induction false} StampAdvancesPerReset(s: Settings, p: PasswordPolicy, starts: seq<Start>)
    requires s.lastChange > 0
    requires ClockFrom(s.lastChange, starts)
    ensures Repeated(Run(s, p, starts).resetCount - s.resetCount, ExpirationWindow(p) + 1) <=
              Run(s, p, starts).lastChange - s.lastChange
    decreases |starts|
  {
    if starts == [] {
      assert Run(s, p, starts) == s;
    } else {
      var s1 := Apply(s, p, starts[0].adminActive, starts[0].now);
      var rest := starts[1..];
      assert Run(s, p, starts) == Run(s1, p, rest);
      assert s.lastChange <= starts[0].now;
      OneStartAdvance(s, p, starts[0].adminActive, starts[0].now);
      assert ClockFrom(s1.lastChange, rest) by {
        assert forall i :: 0 <= i < |rest| ==> rest[i] == starts[i + 1];
      }
      StampAdvancesPerReset(s1, p, rest);
    }
  }

  /**
   * Over any sequence of starts with a forward-running clock, each forced
   * reset moves the stored timestamp more than one window ahead: the number
   * of resets times (window + 1) is at most the time the stamp advanced. For
   * a non-negative window (0..24855 days, say) resets come at most once per
   * window; a negative window bounds nothing, and then, once a timestamp
   * is recorded, every active start forces a reset (NegativeWindowResetsEveryStart).
   */
  lemma ResetsAtMostOncePerWindow(s: Settings, p: PasswordPolicy, starts: seq<Start>)
    requires s.lastChange > 0
    requires ClockFrom(s.lastChange, starts)
    ensures (Run(s, p, starts).resetCount - s.resetCount) * (ExpirationWindow(p) + 1) <=
              Run(s, p, starts).lastChange - s.lastChange
  {
    StampAdvancesPerReset(s, p, starts);
    RepeatedIsProduct(Run(s, p, starts).resetCount - s.resetCount, ExpirationWindow(p) + 1);
  }

  /**
   * With a negative window (a negative day count, or one past 24855 that
   * wraps) every active start on a positive stamp forces a reset, even
   * repeated at one instant: the number of resets is the number of active starts.
   */
  lemma {:induction false} NegativeWindowResetsEveryStart(s: Settings, p: PasswordPolicy, starts: seq<Start>)
    requires ExpirationWindow(p) < 0
    requires s.lastChange > 0
    requires ClockFrom(s.lastChange, starts)
    requires forall i :: 0 <= i < |starts| ==> starts[i].adminActive
    ensures Run(s, p, starts).resetCount == s.resetCount + |starts|
    decreases |starts|
  {
    if starts != [] {
      var s1 := Apply(s, p, true, starts[0].now);
      var rest := starts[1..];
      assert Run(s, p, starts) == Run(s1, p, rest);
      assert s.lastChange <= starts[0].now;
      SubLongExact(starts[0].now, s.lastChange);
      assert s1.resetCount == s.resetCount + 1 && s1.lastChange == starts[0].now;
      assert ClockFrom(s1.lastChange, rest) && forall i :: 0 <= i < |rest| ==> rest[i].adminActive by {
        assert forall i :: 0 <= i < |rest| ==> rest[i] == starts[i + 1];
      }
      NegativeWindowResetsEveryStart(s1, p, rest);
    }
  }

  /**
   * From the first start on a device with no recorded timestamp, the number
   * of forced resets times (window + 1) is at most the time elapsed between
   * the first and the last start.
   */
  lemma {:induction false} ResetsFromFirstStart(s: Settings, p: PasswordPolicy, starts: seq<Start>)
    requires s.lastChange == 0
    requires |starts| > 0 && starts[0].adminActive && starts[0].now > 0
    requires ClockFrom(starts[0].now, starts)
    ensures (Run(s, p, starts).resetCount - s.resetCount) * (ExpirationWindow(p) + 1) <=
              starts[|starts| - 1].now - starts[0].now
  {
    var s1 := Apply(s, p, true, starts[0].now);
    var rest := starts[1..];
    assert forall i :: 0 <= i < |rest| ==> rest[i] == starts[i + 1];
    assert ClockFrom(s1.lastChange, rest);
    ResetsAtMostOncePerWindow(s1, p, rest);
    RunStampBounds(s1, p, rest);
    assert Run(s1, p, rest) == Run(s, p, starts);
  }

  // ---------------------------------------------------------------------
  // Concrete scenarios

  /**
   * {min_length = 8, require_special_chars = true, expiration_days = 30} on a
   * device with no recorded timestamp: minimum length 8, alphanumeric
   * quality, timestamp `now`, no reset.
   */
  lemma FirstRunScenario(s: Settings, now: Int64)
    requires s.lastChange == 0
    ensures Apply(s, PasswordPolicy(Some(8), Some(true), Some(30)), true, now) ==
              Settings(Some(8), Alphanumeric, s.resetCount, now)
  {
  }

  /**
   * A timestamp one day past the window (the 30-day default included), with
   * both instants non-negative, forces a reset. This holds for every
   * non-negative day count: a wrapped window never exceeds (2^31 - 1) * 1000 ms.
   */
  lemma {:induction false} OneDayPastWindowResets(s: Settings, p: PasswordPolicy, now: Int64)
    requires 0 <= ExpirationDays(p)
    requires s.lastChange == now - (ExpirationDays(p) + 1) * MILLIS_PER_DAY
    requires s.lastChange > 0
    ensures Apply(s, p, true, now) ==
              s.(minLength := if p.minLength.Some? then p.minLength else s.minLength,
                 quality := RequiredQuality(p),
                 resetCount := s.resetCount + 1,
                 lastChange := now)
  {
    SubLongExact(now, s.lastChange);
  }

  /** A timestamp one day inside the window (the 30-day default included), with both instants non-negative, is kept without reset. */
  lemma {:induction false} OneDayInsideWindowKept(s: Settings, p: PasswordPolicy, now: Int64)
    requires 1 <= ExpirationDays(p) <= MAX_EXACT_DAYS
    requires s.lastChange == now - (ExpirationDays(p) - 1) * MILLIS_PER_DAY
    requires s.lastChange > 0
    ensures Apply(s, p, true, now).resetCount == s.resetCount
    ensures Apply(s, p, true, now).lastChange == s.lastChange
  {
    SubLongExact(now, s.lastChange);
  }

  /** Exactly at the window's end the password is not yet expired. */
  lemma {:induction false} WindowEndNotExpired(s: Settings, p: PasswordPolicy, now: Int64)
    requires s.lastChange > 0 && now >= 0
    requires now - s.lastChange == ExpirationWindow(p)
    ensures Apply(s, p, true, now).resetCount == s.resetCount
    ensures Apply(s, p, true, now).lastChange == s.lastChange
  {
    SubLongExact(now, s.lastChange);
  }
}

=== FILE: wrappers.dfy ===
/** The optional-value type that stands for Kotlin's nullable types (`T?`). */
module Wrappers {

  datatype Option<+T> = None | Some(value: T) {

    /** The value, or `default` when absent: Kotlin's elvis operator `?:`. */
    function GetOr(default: T): (r: T)
      ensures Some? ==> r == value
      ensures None? ==> r == default
    {
      match this
      case Some(v) => v
      case None => default
    }
  }
}
